=== FILE: README.md ===
# Image editor wizard — a Dafny model

This project models the state logic of a three-screen product-photo wizard
(upload → edit → result) written in TypeScript/React. The wizard keeps one
shared `EditorState`. Screens change it only through a shallow-merge
`updateState`. After every change the store saves a projection of the state
to a storage slot, and on start-up it rehydrates the state from that slot.
No image computation exists: "enhance" builds a text prompt and copies the
original image URL as the "enhanced" one.

Modules follow the source files:

- `Wrappers` (`wrappers.dfy`): `Option` stands for both `null` and `undefined`; `Result` models a parse that may throw.
- `Text` (`text.dfy`): JavaScript truthiness of an optional string (`""` is falsy) and `a || b`. Also substring containment.
- `EditorTypes` (`types.dfy`): `src/types/imageEditor.ts`. It holds the enumerations, `Template`, `EditorState`, and `Partial` (one `Option` per field). `Field`, `Agree`, `Mentions` and `UnchangedExcept` state frame properties.
- `Templates` (`templates.dfy`): `src/constants/imageEditorTemplates.ts`. It holds the three-entry catalog, the style and mood lists, and the lookup by id.
- `EditorContext` (`context.dfy`): `src/contexts/ImageEditorContext.tsx`. It holds the defaults, `Merge` (`updateState`), the persisted record, save and load, and reset. The store is a value `Store(state, slot)`, and the slot is an `Option<Blob>`.
- `UploadScreen`, `EditScreen`, `ResultScreen`: the three screens' handlers, each a pure function `EditorState -> EditorState`.
- `ImageEditor` (`image_editor.dfy`): which screen is drawn; every user action applied to the store, with the persist effect; and the invariants that hold along every session.

Persistence is modelled as follows. The saved object is a `Persisted` record in which every key may be absent (`Key<T>`). Loading computes `{...defaultState, ...parsed, originalImage: null, selectedTemplate: …}` as two merges over the defaults. The slot holds either text that parses (`Parsed(Json)`) or text that does not (`Garbage`). `JSON.parse`/`stringify` themselves are not modelled. Saving writes `Parsed(Object(record))`.

## Model

| member | source | states |
|---|---|---|
| EditorTypes.NamesDistinguish | src/types/imageEditor.ts:4-9 | The marketplace, style and mood literals tell their members apart, and no style or mood tag is empty. |
| EditorTypes.PickSuppliesExactly | src/types/imageEditor.ts:26 | For every subset of the state's fields there is an update that supplies exactly those fields, with any chosen values. |
| Templates.CatalogShape | src/constants/imageEditorTemplates.ts:3-22 | The catalog has exactly three entries, and their ids are pairwise distinct. |
| Templates.KnownIds | src/constants/imageEditorTemplates.ts:4-21 | `wb-studio-clean` resolves to the WB template, `ozon-lifestyle-soft` to the Ozon one and `premium-apple-look` to the Both one. |
| Templates.CatalogEntriesNamed | src/constants/imageEditorTemplates.ts:4-21 | Every catalog entry has a non-empty id and name, so both are truthy. |
| Templates.ListsEnumerate | src/constants/imageEditorTemplates.ts:24-25 | The style list names each of the six styles exactly once, and the mood list each of the five moods, in display order. |
| Templates.Find | src/contexts/ImageEditorContext.tsx:29 | `find` by id returns nothing exactly when no entry has the id. Otherwise it returns the first entry with that id. |
| Templates.FindByIdResolves | src/contexts/ImageEditorContext.tsx:29 | Looking up a catalog entry's id returns that entry. A lookup succeeds exactly when some entry has the id, and what it returns is in the catalog. |
| EditorContext.Merge | src/contexts/ImageEditorContext.tsx:48-50 | Every field the update supplies takes the supplied value. Every other field keeps its previous value. |
| EditorContext.MergeCharacterized | src/contexts/ImageEditorContext.tsx:48-50 | A state equals the merge if and only if it takes the supplied fields from the update and all other fields from the previous state. |
| EditorContext.MergeAllFrame | src/contexts/ImageEditorContext.tsx:48-50 | Over any sequence of updates, a field that no update supplies keeps its value. |
| EditorContext.MergeAllLastWriterWins | src/contexts/ImageEditorContext.tsx:48-50 | Over a sequence of updates, a field ends with the value of the last update that supplies it. |
| EditorContext.Project | src/contexts/ImageEditorContext.tsx:39-45 | The saved object always has a null file handle. `selectedTemplateId` is the template's id when that id is truthy, and null otherwise. The full template object is carried along too. |
| EditorContext.ResolveStoredId | src/contexts/ImageEditorContext.tsx:28-30 | A template is found exactly when the stored id is present, non-empty and held by a catalog entry. The template found is that catalog entry. |
| EditorContext.Overlay | src/contexts/ImageEditorContext.tsx:24-31 | After loading, the file handle is null and the template is re-resolved from the stored id. Every other field takes the stored key if present and the default if not. |
| EditorContext.Initialize | src/contexts/ImageEditorContext.tsx:19-37 | Loading never yields a file handle and never yields a template outside the catalog. An empty slot, unparseable text or a parsed `null` yields exactly the defaults. Any other readable slot loads as the overlay of its keys on the defaults, with the template resolved from the stored id (`EditorContext.Overlay`). |
| EditorContext.KnownIdLoads | src/contexts/ImageEditorContext.tsx:22-31 | A slot holding only a catalog template's id and a description loads that catalog template and that description. Every other field keeps its default. |
| EditorContext.ScalarLoadsDefaults | src/contexts/ImageEditorContext.tsx:23-31 | Text that parses to something other than an object (number, string, array) also loads exactly the defaults. |
| EditorContext.Reresolve | src/contexts/ImageEditorContext.tsx:28-43 | Saving a template by id and re-resolving it gives back any catalog template unchanged, and never a template outside the catalog. |
| EditorContext.SaveLoadRoundTrip | src/contexts/ImageEditorContext.tsx:19-46 | Loading what was saved from any state gives that state back, with the file handle null and the template re-resolved by id. |
| EditorContext.SaveLoadCatalog | src/contexts/ImageEditorContext.tsx:19-46 | If the template is absent or from the catalog, loading what was saved gives the state back with only the file handle lost. |
| EditorContext.Persist | src/contexts/ImageEditorContext.tsx:39-46 | The persist effect leaves the state alone, and the slot it writes loads back to that state (file handle nulled, template re-resolved). |
| EditorContext.Mount | src/contexts/ImageEditorContext.tsx:19-46 | Start-up holds the loaded state without a file handle and writes it back. Mounting again from that slot yields the same state. |
| EditorContext.UpdateState | src/contexts/ImageEditorContext.tsx:39-50 | `updateState` changes only the supplied fields and sets them to the supplied values. The slot then loads back to the new state (file handle nulled, template re-resolved). |
| EditorContext.ResetEditor | src/contexts/ImageEditorContext.tsx:52-55 | Reset yields the default state and an empty slot. A load afterwards yields the defaults, and so does a load after the persist effect has re-saved them. |
| UploadScreen.HandleFile | src/screens/UploadScreen.tsx:9-22 | A file that is neither `image/jpeg` nor `image/png` changes nothing. An accepted file sets the handle, the data URL and the edit screen in one update, and nothing else. |
| UploadScreen.HandleDrop | src/screens/UploadScreen.tsx:34-41 | An empty drop is a no-op. A non-empty drop hands its first file to `handleFile`. Any change comes from an accepted first file, and only the handle, URL and screen can change. |
| UploadScreen.HandleFileSelect | src/screens/UploadScreen.tsx:43-48 | A missing file list is a no-op. Otherwise the picker behaves like a drop of the same files. |
| UploadScreen.OnlyFirstFileCounts | src/screens/UploadScreen.tsx:37-40 | Files after the first never affect the result. A rejected first file leaves the state unchanged, whatever follows it. |
| UploadScreen.UploadKeepsSelections | src/screens/UploadScreen.tsx:14-18 | An upload keeps the styles, mood, template, marketplace, description, prompt and enhanced URL. |
| EditScreen.SelectTemplate | src/screens/EditScreen.tsx:14-19 | Selecting a template sets the template and sets the marketplace to the template's own, replacing any earlier choice. Nothing else changes. |
| EditScreen.ChangeMarketplace | src/screens/EditScreen.tsx:32-34 | A manual marketplace choice changes only the marketplace. The selected template stays selected. |
| EditScreen.SelectMood | src/screens/EditScreen.tsx:28-30 | Choosing a mood sets that single mood and changes nothing else. |
| EditScreen.EditBack | src/screens/EditScreen.tsx:202 | Back goes to the upload screen and changes nothing else. |
| EditScreen.TemplateOverridesMarketplace | src/screens/EditScreen.tsx:14-34 | `premium-apple-look` sets marketplace `Both` whatever was chosen before. A later manual choice keeps the template. |
| EditScreen.RemoveStyle | src/screens/EditScreen.tsx:23 | The filtered list no longer contains the tag. Every other tag occurs as often as before. |
| EditScreen.RemoveKeepsDistinct | src/screens/EditScreen.tsx:23 | Filtering a list without duplicates leaves a list without duplicates. |
| EditScreen.RemoveAtPosition | src/screens/EditScreen.tsx:23 | In a duplicate-free list, filtering a present tag deletes exactly its position. The remaining tags keep their order. |
| EditScreen.RemoveAbsent | src/screens/EditScreen.tsx:23 | Filtering an absent tag returns the list unchanged. |
| EditScreen.RemoveAppended | src/screens/EditScreen.tsx:22-24 | Filtering out a tag just appended to a list without it gives back the original list. |
| EditScreen.ToggledStyles | src/screens/EditScreen.tsx:21-26 | After a toggle the tag is present exactly when it was absent before. Other tags keep their counts. An absent tag is appended at the end. |
| EditScreen.ToggleKeepsDistinct | src/screens/EditScreen.tsx:21-26 | Toggling keeps a list free of duplicates. |
| EditScreen.ToggleTwice | src/screens/EditScreen.tsx:21-26 | Toggling the same tag twice restores the set of tags. If the tag was absent at first, it restores the exact list. |
| EditScreen.ToggleStyle | src/screens/EditScreen.tsx:21-26 | The style toggle flips only the toggled tag's membership and changes no other field. A new tag goes at the end of the list, and the list is exactly the one `EditScreen.ToggledStyles` describes. |
| EditScreen.JoinStyles | src/screens/EditScreen.tsx:38 | The joined text is empty exactly when there are no styles. A single style joins as its own tag. Otherwise the text starts with the first style's tag. |
| EditScreen.JoinMentions | src/screens/EditScreen.tsx:38 | The joined text contains every selected tag. |
| EditScreen.JoinAppend | src/screens/EditScreen.tsx:38 | Appending a style to a non-empty selection appends ", " and that style's tag to the joined text. So the tags appear in selection order, separated by ", ". |
| EditScreen.StylesText | src/screens/EditScreen.tsx:38 | The style part reads "not specified" exactly when no style is selected. Otherwise it is the tags joined with ", ". |
| EditScreen.MoodText | src/screens/EditScreen.tsx:39 | The mood part reads "not specified" exactly when no mood is chosen. Otherwise it is the mood's tag. |
| EditScreen.TemplateText | src/screens/EditScreen.tsx:40 | The template part is the template's name. It reads "none" when there is no template or the name is empty. |
| EditScreen.TemplateTextCatalog | src/screens/EditScreen.tsx:40 | For catalog templates, the template part reads "none" exactly when no template is selected. |
| EditScreen.BuildPrompt | src/screens/EditScreen.tsx:37-41 | The prompt begins with the fixed request, the marketplace and " marketplace. \nStyle: ", and ends with "\nDescription: " followed by the description. The order of all five lines is stated by `EditScreen.PromptLines`. |
| EditScreen.PromptLines | src/screens/EditScreen.tsx:37-41 | The prompt is, in order: the fixed request, the marketplace and " marketplace. \nStyle: "; then the style part; then "\nMood: " with the mood part, "\nTemplate: " with the template part, and "\nDescription: " with the description. |
| EditScreen.PromptMentions | src/screens/EditScreen.tsx:37-41 | The prompt starts with the fixed request and ends with the description. It contains the marketplace, the style part, every selected tag, the mood part and the template part. |
| EditScreen.TypeDescription | src/screens/EditScreen.tsx:187-193 | The description box keeps a prefix of the input of at most 500 characters. Input that is already short enough is kept unchanged. Longer input is cut to exactly its first 500 characters. |
| EditScreen.Enhance | src/screens/EditScreen.tsx:36-58 | Enhance sets the description and the prompt built from the current choices. It copies the original URL as the enhanced one, moves to the result screen and changes nothing else. |
| EditScreen.PressEnhance | src/screens/EditScreen.tsx:207-209 | Pressing Enhance without a file handle does nothing. With one, it runs `handleEnhance` in full: description, prompt, enhanced URL equal to the original, and the result screen. |
| EditScreen.ReloadDisablesEnhance | src/screens/EditScreen.tsx:209 | Whatever the slot held, Enhance is disabled right after a load. |
| ResultScreen.RemoveTemplate | src/screens/ResultScreen.tsx:74-76 | Removing the template clears only the template. The marketplace it set stays. |
| ResultScreen.Refine | src/screens/ResultScreen.tsx:188 | Refine returns to the edit screen and changes nothing else. |
| ResultScreen.BackToUpload | src/screens/ResultScreen.tsx:211 | Back to Upload goes to the upload screen and changes nothing else. |
| ResultScreen.SaveAsTemplate | src/screens/ResultScreen.tsx:198 | Save as Template leaves the state unchanged. |
| ResultScreen.DownloadLink | src/screens/ResultScreen.tsx:63-72 | Nothing is offered when the original URL is falsy. Otherwise the original URL is offered under `enhanced-product-image.png`. |
| ResultScreen.AfterImage | src/screens/ResultScreen.tsx:106 | The "after" picture is the enhanced URL when that is truthy, and the original URL otherwise. |
| ResultScreen.AfterIsBefore | src/screens/ResultScreen.tsx:106 | When the enhanced URL is the original one, the "after" picture is the original picture. |
| ResultScreen.ClampPercent | src/screens/ResultScreen.tsx:26-28 | The divider position is always within [0, 100]. It equals the raw value when that value is in range, and the nearer bound otherwise. |
| ResultScreen.ClampMonotone | src/screens/ResultScreen.tsx:26-28 | Clamping preserves order and is idempotent. |
| ResultScreen.StartDrag | src/screens/ResultScreen.tsx:11-19 | A mouse press or touch start on the handle turns dragging on and keeps the position. |
| ResultScreen.EndDrag | src/screens/ResultScreen.tsx:42-44 | A release turns dragging off and keeps the position. |
| ResultScreen.Move | src/screens/ResultScreen.tsx:22-30 | A move outside a drag is ignored. During a drag the position is the clamped raw value. |
| ResultScreen.DividerStaysInRange | src/screens/ResultScreen.tsx:6-44 | From any position in range, any sequence of presses, moves and releases keeps the divider within [0, 100]. |
| ResultScreen.InitialDividerStaysInRange | src/screens/ResultScreen.tsx:6-44 | From the initial position at 50, any sequence of presses, moves and releases keeps the divider within [0, 100]. |
| ImageEditor.Rendered | src/components/ImageEditor/ImageEditor.tsx:13-15 | The drawn screen is determined by `currentScreen` alone. The edit and result screens draw nothing without a truthy original URL. |
| ImageEditor.Step | src/contexts/ImageEditorContext.tsx:19-55 | How the store reacts to one action. A reload re-runs the initializer on the slot and saves the result. A reset yields the defaults and saves them again. A handler that calls `updateState` moves to the new state and saves it. Any other handler leaves the state and the slot alone. |
| ImageEditor.NoUpdateNoChange | src/screens/ResultScreen.tsx:63-64 | An action whose handler issues no update leaves the state unchanged. Such actions are a rejected file, a disabled Enhance, Save as Template and Download. |
| ImageEditor.FreshStartValid | src/contexts/ImageEditorContext.tsx:5-14 | A first start with an empty slot holds the defaults and satisfies the session invariant. |
| ImageEditor.TransitionConsistent | src/screens/EditScreen.tsx:14-57 | Every screen action preserves the invariant. The invariant has three parts: styles have no duplicates; the template is from the catalog or absent; on the result screen the enhanced URL is the original. |
| ImageEditor.StepValid | src/contexts/ImageEditorContext.tsx:19-55 | Every action, including a reload or a reset, keeps the invariant. The slot always holds the serialization of the current state. |
| ImageEditor.RunValid | src/contexts/ImageEditorContext.tsx:19-55 | Every session of offered actions keeps the invariant and a synced slot. |
| ImageEditor.SessionSurvivesReload | src/contexts/ImageEditorContext.tsx:19-46 | After any session from a fresh start, a reload restores the state except the file handle. On the result screen the "after" picture is the original. |
| ImageEditor.EndToEnd | src/screens/EditScreen.tsx:36-57 | Start from the defaults, drop a PNG, choose WB, the styles minimal and premium and the mood clean, then enhance with "test". The result screen shows the original URL as the enhanced one. The prompt contains "WB", "minimal, premium", "clean" and "test". |

## Behaviour worth noting

- The saved object also carries the full `selectedTemplate` object, through the spread at `src/contexts/ImageEditorContext.tsx:41`. Loading ignores this object and resolves the id instead, so it has no effect on the result (`EditorContext.Project`, `EditorContext.Overlay`).
- The file handle is saved as a `null` key rather than left out.
- The styles are a list, not a set. The toggle keeps the list free of duplicates (`EditScreen.ToggleKeepsDistinct`) and appends a new tag at the end.
- The empty string counts as "no value" wherever the code uses `||` or `?:`. This applies to a stored template id, a template id or name, the style join, and the original and enhanced URLs.

## Left out

- Rendering markup, styling and the Tailwind configuration: presentation only.
- React hooks and effect scheduling, and the `useImageEditor` throw when no provider is present. The store is one value with functional updates. After a reset the persist effect runs again and saves the defaults whenever the previous state was not the very `defaultState` object. Sessions model this usual outcome (`ImageEditor.Step`). When React bails out on the same object, the slot stays empty. `EditorContext.ResetEditor` shows that both outcomes load the defaults.
- `localStorage` I/O and the real `JSON.parse`/`stringify`. Serialization is modelled as exact. `null` and `undefined` are both `None`: an unset prompt or enhanced URL is saved with no key, while the code writes `null` for an enhanced URL copied from a `null` original; both load back as `None`. Stored values are assumed to have the right shapes, because the code does no validation. A `setItem` that fails (for example when a large data URL exceeds the storage quota) is not modelled.
- The stray `selectedTemplateId` key that loading copies into the state object: no code reads it, and the next save overwrites it.
- The asynchronous `FileReader`. Only its completion is modelled, as one atomic update, and the data URL is an opaque input. A file's bytes are not modelled.
- DOM listener attach/detach and the `getBoundingClientRect` arithmetic. The divider works on the raw percentage as a real number. Floating-point edge cases are not modelled: with a zero-width container the raw value is ±Infinity, which the clamp sends to 100 or 0, and it is NaN (0/0) when the pointer is exactly at the container's left edge.
- The prompt's `console.log`, the Save-as-Template `alert`, and the download's anchor click. Only the offered link is modelled.
- The local description buffer and its sync effect. The description is an input to `EditScreen.Enhance`, and `EditScreen.TypeDescription` models the box's 500-character limit as a cut at 500 characters.
- The prompt panel's show/hide toggle and the drag-hover highlight: transient UI state.
- Lengths are counted in Dafny characters, not UTF-16 code units.
- ImageEditor.TransitionConsistent: a template choice is assumed to name a catalog entry, which is the only kind the gallery offers (`ImageEditor.Offered`).

=== FILE: context.dfy ===
/** The editor state store: defaults, the shallow-merge update, reset, and
    the save/load pair that keeps the state across reloads. The storage slot
    is a value (`Option<Blob>`), not a side effect. */
module EditorContext {
  import opened Wrappers
  import opened EditorTypes
  import opened Templates

  /** The state of a fresh editor: nothing uploaded, marketplace `Both`, no
      selections, on the upload screen. */
  const DefaultState: EditorState :=
    EditorState(None, None, Both, None, [], None, "", None, None, Upload)

  /** `updateState`: `{...prev, ...partial}`. Every supplied field takes the
      supplied value; every other field keeps its value. */
  function Merge(s: EditorState, p: Partial): (r: EditorState)
    ensures forall f :: Mentions(p, f) ==> Supplied(p, r, f)
    ensures forall f :: !Mentions(p, f) ==> Agree(s, r, f)
  {
    EditorState(
      p.originalImage.GetOr(s.originalImage),
      p.originalImageUrl.GetOr(s.originalImageUrl),
      p.marketplace.GetOr(s.marketplace),
      p.selectedTemplate.GetOr(s.selectedTemplate),
      p.selectedStyles.GetOr(s.selectedStyles),
      p.selectedMood.GetOr(s.selectedMood),
      p.userDescription.GetOr(s.userDescription),
      p.generatedPrompt.GetOr(s.generatedPrompt),
      p.enhancedImageUrl.GetOr(s.enhancedImageUrl),
      p.currentScreen.GetOr(s.currentScreen))
  }

  /** The two frame facts determine the merge: a state that takes the
      supplied fields from `p` and every other field from `s` is the merge. */
  lemma MergeCharacterized(s: EditorState, p: Partial, r: EditorState)
    ensures r == Merge(s, p) <==>
              (forall f :: Mentions(p, f) ==> Supplied(p, r, f))
              && (forall f :: !Mentions(p, f) ==> Agree(s, r, f))
  {
    var m := Merge(s, p);
    if (forall f :: Mentions(p, f) ==> Supplied(p, r, f))
       && (forall f :: !Mentions(p, f) ==> Agree(s, r, f))
    {
      forall f
        ensures Agree(r, m, f)
      {
        if Mentions(p, f) {
          assert Supplied(p, r, f) && Supplied(p, m, f);
        } else {
          assert Agree(s, r, f) && Agree(s, m, f);
        }
      }
      AgreeEverywhere(r, m);
    }
  }

  /** Several `updateState` calls in a row, first to last. */
  function MergeAll(s: EditorState, ps: seq<Partial>): EditorState
    decreases |ps|
  {
    if |ps| == 0 then s else MergeAll(Merge(s, ps[0]), ps[1..])
  }

  /** A field that none of the updates supplies keeps its value through the
      whole sequence. */
  lemma {:induction false} MergeAllFrame(s: EditorState, ps: seq<Partial>, f: Field)
    requires forall i :: 0 <= i < |ps| ==> !Mentions(ps[i], f)
    ensures Agree(s, MergeAll(s, ps), f)
    decreases |ps|
  {
    if |ps| > 0 {
      var s1 := Merge(s, ps[0]);
      assert !Mentions(ps[0], f);
      assert forall i :: 0 <= i < |ps[1..]| ==> ps[1..][i] == ps[i + 1];
      MergeAllFrame(s1, ps[1..], f);
    }
  }

  /** A field takes the value supplied by the last update that supplies it. */
  lemma {:induction false} MergeAllLastWriterWins(s: EditorState, ps: seq<Partial>, k: nat, f: Field)
    requires k < |ps| && Mentions(ps[k], f)
    requires forall i :: k < i < |ps| ==> !Mentions(ps[i], f)
    ensures Supplied(ps[k], MergeAll(s, ps), f)
    decreases |ps|
  {
    assert forall i :: 0 <= i < |ps[1..]| ==> ps[1..][i] == ps[i + 1];
    if k == 0 {
      var s1 := Merge(s, ps[0]);
      MergeAllFrame(s1, ps[1..], f);
      assert Supplied(ps[0], s1, f);
      SuppliedAgree(ps[0], s1, MergeAll(s1, ps[1..]), f);
    } else {
      MergeAllLastWriterWins(Merge(s, ps[0]), ps[1..], k - 1, f);
    }
  }

  /** A supplied value carries over to any state that agrees on that field. */
  lemma SuppliedAgree(p: Partial, a: EditorState, b: EditorState, f: Field)
    requires Supplied(p, a, f) && Agree(a, b, f)
    ensures Supplied(p, b, f)
  {
  }

  // ---------------------------------------------------------------------
  // Persistence
  // ---------------------------------------------------------------------

  /** A key of a JSON object, which may be missing. */
  datatype Key<T> = Absent | Present(value: T)

  /** The object written to, and read back from, the storage slot: the
      state's keys plus `selectedTemplateId`. Any key may be missing in what
      is read back. */
  datatype Persisted = Persisted(
    originalImage: Key<Option<File>>,
    originalImageUrl: Key<Option<string>>,
    marketplace: Key<Marketplace>,
    selectedTemplate: Key<Option<Template>>,
    selectedStyles: Key<seq<Style>>,
    selectedMood: Key<Option<Mood>>,
    userDescription: Key<string>,
    generatedPrompt: Key<Option<string>>,
    enhancedImageUrl: Key<Option<string>>,
    currentScreen: Key<Screen>,
    selectedTemplateId: Key<Option<string>>)

  /** The object `{}`. */
  const EmptyRecord: Persisted :=
    Persisted(Absent, Absent, Absent, Absent, Absent, Absent, Absent, Absent, Absent, Absent, Absent)

  /** An optional field as serialized: an unset field has no key. */
  function OptionalKey<T>(o: Option<T>): Key<Option<T>> {
    if o.Some? then Present(o) else Absent
  }

  /** `state.selectedTemplate?.id || null`. */
  function TemplateIdOf(t: Option<Template>): Option<string> {
    if t.Some? && t.value.id != "" then Some(t.value.id) else None
  }

  /** The object saved after every state change: the state spread in full,
      the file handle nulled, and the template's id added. */
  function Project(s: EditorState): (r: Persisted)
    ensures r.originalImage == Present(None)
    ensures r.selectedTemplateId.Present?
    ensures r.selectedTemplateId.value.Some? <==> s.selectedTemplate.Some? && s.selectedTemplate.value.id != ""
    ensures r.selectedTemplateId.value.Some? ==> r.selectedTemplateId.value.value == s.selectedTemplate.value.id
    ensures r.selectedTemplate == Present(s.selectedTemplate)
  {
    Persisted(
      Present(None),
      Present(s.originalImageUrl),
      Present(s.marketplace),
      Present(s.selectedTemplate),
      Present(s.selectedStyles),
      Present(s.selectedMood),
      Present(s.userDescription),
      OptionalKey(s.generatedPrompt),
      OptionalKey(s.enhancedImageUrl),
      Present(s.currentScreen),
      Present(TemplateIdOf(s.selectedTemplate)))
  }

  /** What `JSON.parse` yields, as far as loading can tell: an object, the
      value `null`, or any other value (number, string, boolean, array). */
  datatype Json = Object(record: Persisted) | Null | Scalar

  /** The slot's text: text that parses, or text that does not. */
  datatype Blob = Parsed(json: Json) | Garbage(text: string)

  datatype LoadError = SyntaxError | TypeError

  /** `JSON.stringify` of a saved object. */
  function Encode(p: Persisted): Blob {
    Parsed(Object(p))
  }

  /** `JSON.parse` followed by the reads the initializer makes. Spreading a
      non-object value contributes no state keys; reading a property of
      `null` throws. */
  function Read(b: Blob): Result<Persisted, LoadError> {
    match b
    case Garbage(_) => Failure(SyntaxError)
    case Parsed(Object(p)) => Success(p)
    case Parsed(Null) => Failure(TypeError)
    case Parsed(Scalar) => Success(EmptyRecord)
  }

  /** The keys of a parsed object that name state fields, as an update. */
  function ParsedFields(p: Persisted): Partial {
    Partial(
      KeyField(p.originalImage), KeyField(p.originalImageUrl), KeyField(p.marketplace),
      KeyField(p.selectedTemplate), KeyField(p.selectedStyles), KeyField(p.selectedMood),
      KeyField(p.userDescription), KeyField(p.generatedPrompt), KeyField(p.enhancedImageUrl),
      KeyField(p.currentScreen))
  }

  function KeyField<T>(k: Key<T>): Option<T> {
    if k.Present? then Some(k.value) else None
  }

  /** `parsed.selectedTemplateId ? find(...) || null : null`: a truthy stored
      id is looked up in the catalog, anything else means no template. */
  function ResolveStoredId(k: Key<Option<string>>): (r: Option<Template>)
    ensures r.Some? <==> k.Present? && k.value.Some? && k.value.value != ""
                         && exists i :: 0 <= i < |Catalog| && Catalog[i].id == k.value.value
    ensures r.Some? ==> r.value in Catalog && r.value.id == k.value.value
  {
    FindByIdResolves(WbStudioClean, if k.Present? && k.value.Some? then k.value.value else "");
    if k.Present? && k.value.Some? && k.value.value != "" then FindById(k.value.value) else None
  }

  /** `{...defaultState, ...parsed, originalImage: null, selectedTemplate: ...}`:
      the parsed keys over the defaults, the file handle forced to null and
      the template re-resolved from the stored id. */
  function Overlay(p: Persisted): (r: EditorState)
    ensures r.originalImage == None
    ensures r.selectedTemplate == ResolveStoredId(p.selectedTemplateId)
    ensures forall f :: f != OriginalImageF && f != SelectedTemplateF && Mentions(ParsedFields(p), f) ==>
                          Supplied(ParsedFields(p), r, f)
    ensures forall f :: f != OriginalImageF && f != SelectedTemplateF && !Mentions(ParsedFields(p), f) ==>
                          Agree(DefaultState, r, f)
  {
    var forced := NoChange.(originalImage := Some(None),
                            selectedTemplate := Some(ResolveStoredId(p.selectedTemplateId)));
    Merge(Merge(DefaultState, ParsedFields(p)), forced)
  }

  /** The initializer: the slot's record over the defaults, or exactly the
      defaults when the slot is empty or cannot be read. */
  function Initialize(slot: Option<Blob>): (r: EditorState)
    ensures r.originalImage == None
    ensures InCatalog(r.selectedTemplate)
    ensures slot.None? ==> r == DefaultState
    ensures slot.Some? && Read(slot.value).Failure? ==> r == DefaultState
    ensures slot.Some? && Read(slot.value).Success? ==> r == Overlay(Read(slot.value).value)
  {
    if slot.None? then DefaultState
    else match Read(slot.value)
      case Success(p) => Overlay(p)
      case Failure(_) => DefaultState
  }

  /** An object holding only a known template id and a description loads
      that catalog template and that description, and the defaults for
      everything else. */
  lemma KnownIdLoads(t: Template, d: string)
    requires t in Catalog
    ensures Initialize(Some(Parsed(Object(
              EmptyRecord.(selectedTemplateId := Present(Some(t.id)), userDescription := Present(d))))))
            == DefaultState.(selectedTemplate := Some(t), userDescription := d)
  {
    CatalogEntriesNamed(t);
    FindByIdResolves(t, t.id);
  }

  /** Text that parses to a non-object value also loads the defaults. */
  lemma ScalarLoadsDefaults()
    ensures Initialize(Some(Parsed(Scalar))) == DefaultState
  {
  }

  /** The serialized form of a state. */
  function Save(s: EditorState): Blob {
    Encode(Project(s))
  }

  /** The template a reload finds for `t`: the catalog entry with its id. */
  function Reresolve(t: Option<Template>): (r: Option<Template>)
    ensures InCatalog(t) ==> r == t
    ensures InCatalog(r)
  {
    if t.Some? then
      FindByIdResolves(t.value, t.value.id);
      CatalogEntriesNamed(t.value);
      ResolveStoredId(Present(TemplateIdOf(t)))
    else
      ResolveStoredId(Present(None))
  }

  /** Loading what was saved from `s` gives `s` back, except that the file
      handle is null and the template is re-resolved by id. */
  lemma SaveLoadRoundTrip(s: EditorState)
    ensures Initialize(Some(Save(s))) == s.(originalImage := None, selectedTemplate := Reresolve(s.selectedTemplate))
  {
  }

  /** For a state whose template is absent or from the catalog, loading what
      was saved loses only the file handle. */
  lemma SaveLoadCatalog(s: EditorState)
    requires InCatalog(s.selectedTemplate)
    ensures Initialize(Some(Save(s))) == s.(originalImage := None)
  {
  }

  // ---------------------------------------------------------------------
  // The store: state plus storage slot
  // ---------------------------------------------------------------------

  datatype Store = Store(state: EditorState, slot: Option<Blob>)

  /** The persist effect that runs after every state change. */
  function Persist(st: Store): (r: Store)
    ensures r.state == st.state
    ensures Initialize(r.slot) == st.state.(originalImage := None,
                                            selectedTemplate := Reresolve(st.state.selectedTemplate))
  {
    SaveLoadRoundTrip(st.state);
    st.(slot := Some(Save(st.state)))
  }

  /** Provider start-up: the initializer reads the slot, then the persist
      effect writes the loaded state back. Mounting again reads the same
      state. */
  function Mount(slot: Option<Blob>): (r: Store)
    ensures r.state == Initialize(slot)
    ensures r.state.originalImage == None
    ensures Initialize(r.slot) == r.state
  {
    Persist(Store(Initialize(slot), slot))
  }

  /** `updateState` followed by the persist effect. */
  function UpdateState(st: Store, p: Partial): (r: Store)
    ensures UnchangedExcept(st.state, r.state, set f | Mentions(p, f) :: f)
    ensures forall f :: Mentions(p, f) ==> Supplied(p, r.state, f)
    ensures Initialize(r.slot) == r.state.(originalImage := None,
                                           selectedTemplate := Reresolve(r.state.selectedTemplate))
  {
    Persist(Store(Merge(st.state, p), st.slot))
  }

  /** `resetEditor`: the defaults, and the slot removed. */
  function ResetEditor(st: Store): (r: Store)
    ensures r.state == DefaultState && r.slot.None?
    ensures Initialize(r.slot) == DefaultState
    ensures Initialize(Persist(r).slot) == DefaultState
  {
    SaveLoadCatalog(DefaultState);
    Store(DefaultState, None)
  }
}

=== FILE: edit_screen.dfy ===
/** The edit screen: template, style, mood and marketplace choices, the
    prompt the "Enhance" action builds, and the move to the result screen. */
module EditScreen {
  import opened Wrappers
  import opened EditorTypes
  import opened Templates
  import opened EditorContext
  import opened Text

  /** `handleTemplateSelect`: the template and its marketplace, overriding
      any marketplace chosen before. */
  function SelectTemplate(s: EditorState, t: Template): (r: EditorState)
    ensures r.selectedTemplate == Some(t) && r.marketplace == t.marketplace
    ensures UnchangedExcept(s, r, {SelectedTemplateF, MarketplaceF})
  {
    Merge(s, NoChange.(selectedTemplate := Some(Some(t)), marketplace := Some(t.marketplace)))
  }

  /** `handleMarketplaceChange`: only the marketplace; a selected template
      stays selected. */
  function ChangeMarketplace(s: EditorState, m: Marketplace): (r: EditorState)
    ensures r.marketplace == m && r.selectedTemplate == s.selectedTemplate
    ensures UnchangedExcept(s, r, {MarketplaceF})
  {
    Merge(s, NoChange.(marketplace := Some(m)))
  }

  /** `handleMoodSelect`: the mood replaces any previous one. */
  function SelectMood(s: EditorState, m: Mood): (r: EditorState)
    ensures r.selectedMood == Some(m)
    ensures UnchangedExcept(s, r, {SelectedMoodF})
  {
    Merge(s, NoChange.(selectedMood := Some(Some(m))))
  }

  /** The "Back" button: to the upload screen, keeping everything else. */
  function EditBack(s: EditorState): (r: EditorState)
    ensures r.currentScreen == Upload
    ensures UnchangedExcept(s, r, {CurrentScreenF})
  {
    Merge(s, NoChange.(currentScreen := Some(Upload)))
  }

  /** Selecting the premium template sets marketplace `Both`, whatever was
      chosen before, and a later manual choice leaves the template alone. */
  lemma TemplateOverridesMarketplace(s: EditorState, m: Marketplace)
    ensures SelectTemplate(s, PremiumAppleLook).marketplace == Both
    ensures SelectTemplate(ChangeMarketplace(s, m), PremiumAppleLook).marketplace == Both
    ensures ChangeMarketplace(SelectTemplate(s, PremiumAppleLook), m).selectedTemplate == Some(PremiumAppleLook)
  {
  }

  // ---------------------------------------------------------------------
  // Style toggling
  // ---------------------------------------------------------------------

  /** `styles.filter(s => s !== st)`. */
  function RemoveStyle(xs: seq<Style>, st: Style): (r: seq<Style>)
    ensures forall y :: y in r <==> y in xs && y != st
    ensures forall y :: y != st ==> multiset(r)[y] == multiset(xs)[y]
    ensures |r| <= |xs|
  {
    if |xs| == 0 then []
    else
      var rest := RemoveStyle(xs[1..], st);
      assert xs == [xs[0]] + xs[1..];
      if xs[0] == st then rest else [xs[0]] + rest
  }

  /** Removing from a list without duplicates leaves a list without
      duplicates. */
  lemma {:induction false} RemoveKeepsDistinct(xs: seq<Style>, st: Style)
    requires Distinct(xs)
    ensures Distinct(RemoveStyle(xs, st))
  {
    if |xs| > 0 {
      assert Distinct(xs[1..]) by {
        forall i, j | 0 <= i < j < |xs[1..]| ensures xs[1..][i] != xs[1..][j] {
          assert xs[1..][i] == xs[i + 1] && xs[1..][j] == xs[j + 1];
        }
      }
      RemoveKeepsDistinct(xs[1..], st);
      var rest := RemoveStyle(xs[1..], st);
      if xs[0] != st {
        assert xs[0] !in xs[1..] by {
          forall k | 0 <= k < |xs[1..]| ensures xs[1..][k] != xs[0] {
            assert xs[1..][k] == xs[k + 1];
          }
        }
        assert xs[0] !in rest;
        var r := [xs[0]] + rest;
        forall i, j | 0 <= i < j < |r| ensures r[i] != r[j] {
          if i == 0 {
            assert r[j] == rest[j - 1];
          } else {
            assert r[i] == rest[i - 1] && r[j] == rest[j - 1];
          }
        }
      }
    }
  }

  /** In a list without duplicates, removing a present tag deletes exactly
      its one position and keeps the order of the rest. */
  lemma {:induction false} RemoveAtPosition(xs: seq<Style>, st: Style, i: nat)
    requires Distinct(xs) && i < |xs| && xs[i] == st
    ensures RemoveStyle(xs, st) == xs[..i] + xs[i + 1..]
  {
    if i == 0 {
      assert st !in xs[1..] by {
        forall k | 0 <= k < |xs[1..]| ensures xs[1..][k] != st {
          assert xs[1..][k] == xs[k + 1];
        }
      }
      RemoveAbsent(xs[1..], st);
    } else {
      assert Distinct(xs[1..]) by {
        forall a, b | 0 <= a < b < |xs[1..]| ensures xs[1..][a] != xs[1..][b] {
          assert xs[1..][a] == xs[a + 1] && xs[1..][b] == xs[b + 1];
        }
      }
      assert xs[1..][i - 1] == st;
      RemoveAtPosition(xs[1..], st, i - 1);
      assert xs[0] != st;
      assert xs[1..][..i - 1] == xs[1..i];
      assert xs[1..][i..] == xs[i + 1..];
      assert [xs[0]] + xs[1..i] == xs[..i];
    }
  }

  /** Removing an absent tag changes nothing. */
  lemma {:induction false} RemoveAbsent(xs: seq<Style>, st: Style)
    requires st !in xs
    ensures RemoveStyle(xs, st) == xs
  {
    if |xs| > 0 {
      assert st !in xs[1..];
      RemoveAbsent(xs[1..], st);
      assert xs == [xs[0]] + xs[1..];
    }
  }

  /** The new list `handleStyleToggle` computes: drop the tag if present,
      append it if absent. */
  function ToggledStyles(xs: seq<Style>, st: Style): (r: seq<Style>)
    ensures st in r <==> st !in xs
    ensures forall y :: y != st ==> multiset(r)[y] == multiset(xs)[y]
    ensures st !in xs ==> |r| == |xs| + 1 && r[..|xs|] == xs && r[|xs|] == st
  {
    if st in xs then RemoveStyle(xs, st)
    else
      assert (xs + [st])[..|xs|] == xs;
      xs + [st]
  }

  /** Toggling keeps a list free of duplicates. */
  lemma ToggleKeepsDistinct(xs: seq<Style>, st: Style)
    requires Distinct(xs)
    ensures Distinct(ToggledStyles(xs, st))
  {
    if st in xs {
      RemoveKeepsDistinct(xs, st);
    } else {
      var r := xs + [st];
      forall i, j | 0 <= i < j < |r| ensures r[i] != r[j] {
        if j == |xs| {
          assert r[i] == xs[i];
        } else {
          assert r[i] == xs[i] && r[j] == xs[j];
        }
      }
    }
  }

  /** Toggling the same tag twice gives back the same set of tags, and the
      very same list when the tag was absent at first. */
  lemma ToggleTwice(xs: seq<Style>, st: Style)
    ensures forall y :: y in ToggledStyles(ToggledStyles(xs, st), st) <==> y in xs
    ensures st !in xs ==> ToggledStyles(ToggledStyles(xs, st), st) == xs
  {
    if st !in xs {
      RemoveAppended(xs, st);
    }
  }

  /** Filtering out a tag just appended to a list without it gives the list. */
  lemma RemoveAppended(xs: seq<Style>, st: Style)
    requires st !in xs
    ensures RemoveStyle(xs + [st], st) == xs
  {
    var r := RemoveStyle(xs + [st], st);
    RemoveAbsent(xs, st);
    RemoveSplit(xs, [st], st);
  }

  /** Filtering distributes over concatenation. */
  lemma {:induction false} RemoveSplit(a: seq<Style>, b: seq<Style>, st: Style)
    ensures RemoveStyle(a + b, st) == RemoveStyle(a, st) + RemoveStyle(b, st)
  {
    if |a| == 0 {
      assert a + b == b;
    } else {
      assert (a + b)[1..] == a[1..] + b;
      assert (a + b)[0] == a[0];
      RemoveSplit(a[1..], b, st);
    }
  }

  /** `handleStyleToggle`. */
  function ToggleStyle(s: EditorState, st: Style): (r: EditorState)
    ensures st in r.selectedStyles <==> st !in s.selectedStyles
    ensures forall y :: y != st ==> (y in r.selectedStyles <==> y in s.selectedStyles)
    ensures st !in s.selectedStyles ==> r.selectedStyles == s.selectedStyles + [st]
    ensures r.selectedStyles == ToggledStyles(s.selectedStyles, st)
    ensures UnchangedExcept(s, r, {SelectedStylesF})
  {
    Merge(s, NoChange.(selectedStyles := Some(ToggledStyles(s.selectedStyles, st))))
  }

  // ---------------------------------------------------------------------
  // The prompt
  // ---------------------------------------------------------------------

  /** `styles.join(', ')`. */
  function JoinStyles(xs: seq<Style>): (r: string)
    ensures r == "" <==> |xs| == 0
    ensures |xs| == 1 ==> r == StyleName(xs[0])
    ensures |xs| > 0 ==> StyleName(xs[0]) <= r && r[0] == StyleName(xs[0])[0]
  {
    if |xs| == 0 then ""
    else if |xs| == 1 then StyleName(xs[0])
    else StyleName(xs[0]) + ", " + JoinStyles(xs[1..])
  }

  /** The joined text contains every selected tag. */
  lemma JoinMentions(xs: seq<Style>)
    ensures forall i :: 0 <= i < |xs| ==> ContainsText(JoinStyles(xs), StyleName(xs[i]))
  {
    forall i | 0 <= i < |xs| ensures ContainsText(JoinStyles(xs), StyleName(xs[i])) {
      JoinMentionsAt(xs, i);
    }
  }

  /** The joined text contains the tag at position `i`. */
  lemma {:induction false} JoinMentionsAt(xs: seq<Style>, i: nat)
    requires i < |xs|
    ensures ContainsText(JoinStyles(xs), StyleName(xs[i]))
    decreases i
  {
    if |xs| == 1 {
      ContainsSides(StyleName(xs[0]), "");
      assert StyleName(xs[0]) + "" == JoinStyles(xs);
    } else {
      JoinCons(xs);
      var head := StyleName(xs[0]) + ", ";
      var rest := JoinStyles(xs[1..]);
      ContainsSides(head, rest);
      if i == 0 {
        ContainsSides(StyleName(xs[0]), ", ");
        ContainsTrans(head + rest, head, StyleName(xs[0]));
      } else {
        JoinMentionsAt(xs[1..], i - 1);
        assert xs[1..][i - 1] == xs[i];
        ContainsTrans(head + rest, rest, StyleName(xs[i]));
      }
    }
  }

  /** Appending a style to a non-empty selection appends ", " and its tag
      to the joined text: the tags appear in selection order, separated by
      ", ". */
  lemma {:induction false} JoinAppend(xs: seq<Style>, y: Style)
    requires |xs| > 0
    ensures JoinStyles(xs + [y]) == JoinStyles(xs) + ", " + StyleName(y)
    decreases |xs|
  {
    var ys := xs + [y];
    assert ys[0] == xs[0] && ys[1..] == xs[1..] + [y];
    JoinCons(ys);
    if |xs| == 1 {
      assert ys[1..] == [y];
    } else {
      JoinCons(xs);
      JoinAppend(xs[1..], y);
      Regroup(StyleName(xs[0]) + ", ", JoinStyles(xs[1..]), ", " + StyleName(y));
    }
  }

  /** Concatenation regrouped. */
  lemma Regroup(a: string, b: string, c: string)
    ensures a + (b + c) == (a + b) + c
  {
  }

  /** A selection of two or more styles joins as its first tag, ", " and
      the join of the rest. */
  lemma JoinCons(xs: seq<Style>)
    requires |xs| > 1
    ensures JoinStyles(xs) == StyleName(xs[0]) + ", " + JoinStyles(xs[1..])
  {
  }

  /** `styles.join(', ') || 'not specified'`. */
  function StylesText(xs: seq<Style>): (r: string)
    ensures r == "not specified" <==> |xs| == 0
    ensures |xs| > 0 ==> r == JoinStyles(xs)
  {
    var j := JoinStyles(xs);
    assert |xs| > 0 ==> j[0] != "not specified"[0];
    OrElse(Some(j), "not specified")
  }

  /** `mood || 'not specified'`. */
  function MoodText(m: Option<Mood>): (r: string)
    ensures r == "not specified" <==> m.None?
    ensures m.Some? ==> r == MoodName(m.value)
  {
    OrElse(if m.Some? then Some(MoodName(m.value)) else None, "not specified")
  }

  /** `template?.name || 'none'`. */
  function TemplateText(t: Option<Template>): (r: string)
    ensures t.None? ==> r == "none"
    ensures t.Some? && t.value.name != "" ==> r == t.value.name
    ensures t.Some? && t.value.name == "" ==> r == "none"
  {
    OrElse(if t.Some? then Some(t.value.name) else None, "none")
  }

  /** For a catalog template (or none), the template part reads "none"
      exactly when no template is selected. */
  lemma TemplateTextCatalog(t: Option<Template>)
    requires InCatalog(t)
    ensures TemplateText(t) == "none" <==> t.None?
  {
  }

  const PromptIntro: string := "Improve this product image for "

  /** The prompt `handleEnhance` builds from the current choices and the
      description (string concatenation is associative, so the grouping is
      immaterial; it follows the five lines of the prompt). */
  function BuildPrompt(s: EditorState, description: string): (r: string)
    ensures PromptIntro + MarketplaceName(s.marketplace) + " marketplace. \nStyle: " <= r
    ensures EndsWith(r, "\nDescription: " + description)
  {
    PromptIntro + MarketplaceName(s.marketplace)
    + (" marketplace. \nStyle: " + StylesText(s.selectedStyles)
    + ("\nMood: " + MoodText(s.selectedMood)
    + ("\nTemplate: " + TemplateText(s.selectedTemplate)
    + ("\nDescription: " + description))))
  }

  /** The prompt's five lines in order: the request with the marketplace
      and the "Style: " label, then the style part, then the Mood, Template
      and Description lines. */
  lemma PromptLines(s: EditorState, d: string)
    ensures var head := PromptIntro + MarketplaceName(s.marketplace) + " marketplace. \nStyle: ";
            var tail := "\nMood: " + MoodText(s.selectedMood) + "\nTemplate: " + TemplateText(s.selectedTemplate)
                        + "\nDescription: " + d;
            var r := BuildPrompt(s, d);
            && head <= r && EndsWith(r, tail)
            && |r| == |head| + |StylesText(s.selectedStyles)| + |tail|
            && r[|head|..|r| - |tail|] == StylesText(s.selectedStyles)
  {
    Assemble(PromptIntro, MarketplaceName(s.marketplace), " marketplace. \nStyle: ", StylesText(s.selectedStyles),
             "\nMood: ", MoodText(s.selectedMood), "\nTemplate: ", TemplateText(s.selectedTemplate),
             "\nDescription: ", d);
    Sandwich(PromptIntro + MarketplaceName(s.marketplace) + " marketplace. \nStyle: ", StylesText(s.selectedStyles),
             "\nMood: " + MoodText(s.selectedMood) + "\nTemplate: " + TemplateText(s.selectedTemplate)
             + "\nDescription: " + d);
  }

  /** The right-nested concatenation regrouped around its fourth operand. */
  lemma Assemble(i: string, m: string, b: string, st: string, c: string, mo: string,
                 e: string, t: string, g: string, d: string)
    ensures i + m + (b + st + (c + mo + (e + t + (g + d))))
            == (i + m + b) + st + (c + mo + e + t + g + d)
  {
  }

  /** In `h + m + t` the middle part sits between the prefix `h` and the
      suffix `t`. */
  lemma Sandwich(h: string, m: string, t: string)
    ensures var r := h + m + t;
            && h <= r && EndsWith(r, t) && |r| == |h| + |m| + |t| && r[|h|..|r| - |t|] == m
  {
  }

  /** `s` ends with `d`. */
  predicate EndsWith(s: string, d: string) {
    |d| <= |s| && s[|s| - |d|..] == d
  }

  /** In `a + x + b` both `x` and everything `x` contains occur. */
  lemma MiddleMentions(a: string, x: string, b: string, u: string)
    requires ContainsText(x, u)
    ensures ContainsText(a + x + b, u)
  {
    ContainsMiddle(a, x, b);
    ContainsTrans(a + x + b, x, u);
  }

  /** In `i + m + (b + st + (c + mo + (e + t + (g + d))))` each of the
      variable parts occurs, `i` is a prefix and `d` a suffix. */
  lemma LinesMention(i: string, m: string, b: string, st: string, c: string, mo: string,
                     e: string, t: string, g: string, d: string)
    ensures var p := i + m + (b + st + (c + mo + (e + t + (g + d))));
            && i <= p && EndsWith(p, d)
            && ContainsText(p, m) && ContainsText(p, st) && ContainsText(p, mo) && ContainsText(p, t)
  {
    var w := g + d;
    var z := e + t + w;
    var y := c + mo + z;
    var x := b + st + y;
    var p := i + m + x;
    ContainsMiddle(e, t, w);
    MiddleMentions(c + mo, z, "", t);
    assert c + mo + z + "" == y;
    ContainsMiddle(c, mo, z);
    MiddleMentions(b + st, y, "", t);
    MiddleMentions(b + st, y, "", mo);
    assert b + st + y + "" == x;
    ContainsMiddle(b, st, y);
    MiddleMentions(i + m, x, "", t);
    MiddleMentions(i + m, x, "", mo);
    MiddleMentions(i + m, x, "", st);
    assert i + m + x + "" == p;
    ContainsMiddle(i, m, x);
    Suffixes(i + m, b + st, c + mo, e + t, g, d);
    assert p == i + (m + x);
  }

  /** The last operand of a right-nested concatenation is its suffix. */
  lemma Suffixes(a: string, b: string, c: string, e: string, g: string, d: string)
    ensures EndsWith(a + (b + (c + (e + (g + d)))), d)
  {
  }

  /** The prompt starts with the fixed request, ends with the description,
      and mentions the marketplace, the style part and every selected style,
      the mood part and the template part. */
  lemma PromptMentions(s: EditorState, d: string)
    ensures var p := BuildPrompt(s, d);
            && PromptIntro <= p
            && EndsWith(p, d)
            && ContainsText(p, MarketplaceName(s.marketplace))
            && ContainsText(p, StylesText(s.selectedStyles))
            && ContainsText(p, MoodText(s.selectedMood))
            && ContainsText(p, TemplateText(s.selectedTemplate))
            && forall st :: st in s.selectedStyles ==> ContainsText(p, StyleName(st))
  {
    var p := BuildPrompt(s, d);
    var st := StylesText(s.selectedStyles);
    LinesMention(PromptIntro, MarketplaceName(s.marketplace), " marketplace. \nStyle: ", st,
                 "\nMood: ", MoodText(s.selectedMood), "\nTemplate: ", TemplateText(s.selectedTemplate),
                 "\nDescription: ", d);
    JoinMentions(s.selectedStyles);
    forall a | a in s.selectedStyles ensures ContainsText(p, StyleName(a)) {
      var i :| 0 <= i < |s.selectedStyles| && s.selectedStyles[i] == a;
      ContainsTrans(p, st, StyleName(a));
    }
  }

  // ---------------------------------------------------------------------
  // Description and enhancement
  // ---------------------------------------------------------------------

  /** The description box's `maxLength`. */
  const MaxDescriptionLength: nat := 500

  /** What the description box keeps of typed or pasted text: at most
      `MaxDescriptionLength` characters, from the start. */
  function TypeDescription(typed: string): (r: string)
    ensures |r| <= MaxDescriptionLength
    ensures r <= typed
    ensures |typed| <= MaxDescriptionLength ==> r == typed
    ensures |typed| > MaxDescriptionLength ==> |r| == MaxDescriptionLength
  {
    if |typed| <= MaxDescriptionLength then typed else typed[..MaxDescriptionLength]
  }

  /** The "Enhance" button is enabled only while a file handle is held. */
  predicate CanEnhance(s: EditorState) {
    s.originalImage.Some?
  }

  /** `handleEnhance`: commits the description and the prompt, copies the
      original URL as the "enhanced" one and moves to the result screen. */
  function Enhance(s: EditorState, description: string): (r: EditorState)
    ensures r.userDescription == description
    ensures r.generatedPrompt == Some(BuildPrompt(s, description))
    ensures r.enhancedImageUrl == s.originalImageUrl == r.originalImageUrl
    ensures r.currentScreen == Result
    ensures UnchangedExcept(s, r, {UserDescriptionF, GeneratedPromptF, EnhancedImageUrlF, CurrentScreenF})
  {
    Merge(s, NoChange.(userDescription := Some(description),
                       generatedPrompt := Some(Some(BuildPrompt(s, description))),
                       currentScreen := Some(Result),
                       enhancedImageUrl := Some(s.originalImageUrl)))
  }

  /** A press on the "Enhance" button: nothing happens while it is disabled. */
  function PressEnhance(s: EditorState, description: string): (r: EditorState)
    ensures !CanEnhance(s) ==> r == s
    ensures CanEnhance(s) ==> r == Enhance(s, description)
    ensures CanEnhance(s) ==> r.currentScreen == Result && r.enhancedImageUrl == s.originalImageUrl
  {
    if CanEnhance(s) then Enhance(s, description) else s
  }

  /** After a reload the file handle is gone, so "Enhance" is disabled until
      a file is uploaded again. */
  lemma ReloadDisablesEnhance(slot: Option<Blob>, d: string)
    ensures !CanEnhance(Initialize(slot))
    ensures PressEnhance(Initialize(slot), d) == Initialize(slot)
  {
  }
}

=== FILE: image_editor.dfy ===
/** The wizard as a whole: which screen is drawn, the user actions of all
    three screens applied to the store, and the facts that hold along every
    session. */
module ImageEditor {
  import opened Wrappers
  import opened EditorTypes
  import opened Templates
  import opened EditorContext
  import opened Text
  import UploadScreen
  import EditScreen
  import ResultScreen

  /** What the editor draws. */
  datatype View = UploadView | EditView | ResultView | Blank

  /** The screen is chosen by `currentScreen` alone; the edit and result
      screens draw nothing without an original URL. */
  function Rendered(s: EditorState): (r: View)
    ensures r == UploadView <==> s.currentScreen == Upload
    ensures r == EditView <==> s.currentScreen == Edit && Truthy(s.originalImageUrl)
    ensures r == ResultView <==> s.currentScreen == Result && Truthy(s.originalImageUrl)
  {
    match s.currentScreen
    case Upload => UploadView
    case Edit => if Truthy(s.originalImageUrl) then EditView else Blank
    case Result => if Truthy(s.originalImageUrl) then ResultView else Blank
  }

  /** Every user action of the three screens, plus a page reload and a reset. */
  datatype Action =
    | DropFiles(files: seq<File>, dataUrl: string)
    | PickFiles(picked: Option<seq<File>>, dataUrl: string)
    | ChooseTemplate(template: Template)
    | ToggleStyleTag(style: Style)
    | ChooseMood(mood: Mood)
    | ChooseMarketplace(marketplace: Marketplace)
    | PressEnhance(description: string)
    | BackFromEdit
    | ClearTemplate
    | Refine
    | BackFromResult
    | SaveAsTemplate
    | DownloadImage
    | Reload
    | Reset

  /** The state a screen action leads to (a reload or a reset acts on the
      whole store, see `Step`). */
  function Transition(s: EditorState, a: Action): EditorState {
    match a
    case DropFiles(files, url) => UploadScreen.HandleDrop(s, files, url)
    case PickFiles(picked, url) => UploadScreen.HandleFileSelect(s, picked, url)
    case ChooseTemplate(t) => EditScreen.SelectTemplate(s, t)
    case ToggleStyleTag(st) => EditScreen.ToggleStyle(s, st)
    case ChooseMood(m) => EditScreen.SelectMood(s, m)
    case ChooseMarketplace(m) => EditScreen.ChangeMarketplace(s, m)
    case PressEnhance(d) => EditScreen.PressEnhance(s, d)
    case BackFromEdit => EditScreen.EditBack(s)
    case ClearTemplate => ResultScreen.RemoveTemplate(s)
    case Refine => ResultScreen.Refine(s)
    case BackFromResult => ResultScreen.BackToUpload(s)
    case SaveAsTemplate => ResultScreen.SaveAsTemplate(s)
    case DownloadImage => s
    case Reload => s
    case Reset => s
  }

  /** The action's handler calls `updateState`. */
  predicate Updates(s: EditorState, a: Action) {
    match a
    case DropFiles(files, _) => |files| > 0 && UploadScreen.Accepted(files[0])
    case PickFiles(picked, _) => picked.Some? && |picked.value| > 0 && UploadScreen.Accepted(picked.value[0])
    case PressEnhance(_) => EditScreen.CanEnhance(s)
    case SaveAsTemplate => false
    case DownloadImage => false
    case Reload => false
    case Reset => false
    case _ => true
  }

  /** A handler that issues no update leaves the state as it was. */
  lemma NoUpdateNoChange(s: EditorState, a: Action)
    ensures !Updates(s, a) ==> Transition(s, a) == s
  {
  }

  /** One action on the store. An update is followed by the persist effect;
      a handler that issues none leaves the slot alone. A reset removes the
      slot, and the persist effect then saves the defaults again. */
  function Step(st: Store, a: Action): (r: Store)
    ensures a.Reload? ==> r.state == Initialize(st.slot) && r.slot == Some(Save(r.state))
    ensures a.Reset? ==> r.state == DefaultState && r.slot == Some(Save(DefaultState))
    ensures !a.Reload? && !a.Reset? && Updates(st.state, a) ==>
              r.state == Transition(st.state, a) && r.slot == Some(Save(r.state))
    ensures !a.Reload? && !a.Reset? && !Updates(st.state, a) ==> r == st
  {
    match a
    case Reload => Mount(st.slot)
    case Reset => Persist(ResetEditor(st))
    case _ =>
      if Updates(st.state, a) then Persist(Store(Transition(st.state, a), st.slot)) else st
  }

  /** The actions in order. */
  function Run(st: Store, acts: seq<Action>): Store
    decreases |acts|
  {
    if |acts| == 0 then st else Run(Step(st, acts[0]), acts[1..])
  }

  /** The gallery only offers catalog templates. */
  predicate Offered(a: Action) {
    a.ChooseTemplate? ==> a.template in Catalog
  }

  /** What every session keeps: styles without duplicates, a template from
      the catalog or none, and on the result screen the "enhanced" URL is the
      original one. */
  predicate Consistent(s: EditorState) {
    && Distinct(s.selectedStyles)
    && InCatalog(s.selectedTemplate)
    && (s.currentScreen == Result ==> s.enhancedImageUrl == s.originalImageUrl)
  }

  /** The slot holds the state's serialization. */
  predicate Synced(st: Store) {
    st.slot == Some(Save(st.state))
  }

  /** A store whose state is consistent and whose slot is in step with it. */
  predicate Valid(st: Store) {
    Consistent(st.state) && Synced(st)
  }

  /** A fresh start is valid. */
  lemma FreshStartValid()
    ensures Valid(Mount(None))
    ensures Mount(None).state == DefaultState
  {
  }

  /** Every screen action keeps the state consistent. */
  lemma TransitionConsistent(s: EditorState, a: Action)
    requires Consistent(s) && Offered(a)
    ensures Consistent(Transition(s, a))
  {
    match a
    case ToggleStyleTag(st) =>
      EditScreen.ToggleKeepsDistinct(s.selectedStyles, st);
    case _ =>
  }

  /** Every offered action keeps the store valid. */
  lemma StepValid(st: Store, a: Action)
    requires Valid(st) && Offered(a)
    ensures Valid(Step(st, a))
  {
    match a
    case Reload =>
      SaveLoadCatalog(st.state);
    case Reset =>
    case _ =>
      TransitionConsistent(st.state, a);
  }

  /** Along any session of offered actions the store stays valid. */
  lemma {:induction false} RunValid(st: Store, acts: seq<Action>)
    requires Valid(st)
    requires forall i :: 0 <= i < |acts| ==> Offered(acts[i])
    ensures Valid(Run(st, acts))
    decreases |acts|
  {
    if |acts| > 0 {
      StepValid(st, acts[0]);
      assert forall i :: 0 <= i < |acts[1..]| ==> acts[1..][i] == acts[i + 1];
      RunValid(Step(st, acts[0]), acts[1..]);
    }
  }

  /** After any session started afresh, reloading the page restores the
      state except for the file handle, and the result screen shows the
      original picture as the "after" picture. */
  lemma SessionSurvivesReload(acts: seq<Action>)
    requires forall i :: 0 <= i < |acts| ==> Offered(acts[i])
    ensures var st := Run(Mount(None), acts);
            && Initialize(st.slot) == st.state.(originalImage := None)
            && (st.state.currentScreen == Result ==> ResultScreen.AfterImage(st.state) == st.state.originalImageUrl)
  {
    FreshStartValid();
    RunValid(Mount(None), acts);
    var st := Run(Mount(None), acts);
    SaveLoadCatalog(st.state);
  }

  /** The choices of the scenario below, made on the edit screen. */
  function ScenarioChoices(s1: EditorState): EditorState {
    var s2 := EditScreen.ChangeMarketplace(s1, WB);
    var s3 := EditScreen.ToggleStyle(EditScreen.ToggleStyle(s2, Minimal), Premium);
    EditScreen.SelectMood(s3, Clean)
  }

  /** The scenario: from the defaults, drop a PNG, choose WB, the styles
      minimal and premium, the mood clean, describe "test" and enhance. The
      result screen is reached with the original URL as the "enhanced" one
      and a prompt that mentions every choice. */
  lemma EndToEnd(png: File, url: string)
    requires png.mimeType == "image/png"
    ensures var s1 := UploadScreen.HandleDrop(DefaultState, [png], url);
            && s1.currentScreen == Edit && s1.originalImageUrl == Some(url)
            && var s5 := EditScreen.PressEnhance(ScenarioChoices(s1), "test");
               && s5.currentScreen == Result
               && s5.enhancedImageUrl == s5.originalImageUrl == Some(url)
               && s5.generatedPrompt.Some?
               && ContainsText(s5.generatedPrompt.value, "WB")
               && ContainsText(s5.generatedPrompt.value, "minimal, premium")
               && ContainsText(s5.generatedPrompt.value, "clean")
               && ContainsText(s5.generatedPrompt.value, "test")
  {
    var s1 := UploadScreen.HandleDrop(DefaultState, [png], url);
    assert s1 == UploadScreen.HandleFile(DefaultState, png, url);
    assert s1.originalImage == Some(png) && s1.originalImageUrl == Some(url) && s1.selectedStyles == [];
    var s4 := ScenarioChoices(s1);
    ScenarioChoicesMade(s1);
    EditScreen.PromptMentions(s4, "test");
    var p := EditScreen.BuildPrompt(s4, "test");
    assert ContainsText(p, "test") by {
      assert "test" <= p[|p| - 4..];
    }
    var s5 := EditScreen.PressEnhance(s4, "test");
    assert s5.generatedPrompt == Some(p);
  }

  /** The scenario's choices land in the state as made. */
  lemma ScenarioChoicesMade(s1: EditorState)
    requires s1.selectedStyles == [] && s1.originalImage.Some?
    ensures var s4 := ScenarioChoices(s1);
            && s4.marketplace == WB && s4.selectedMood == Some(Clean)
            && s4.originalImage == s1.originalImage && s4.originalImageUrl == s1.originalImageUrl
            && EditScreen.StylesText(s4.selectedStyles) == "minimal, premium"
  {
    var s2 := EditScreen.ChangeMarketplace(s1, WB);
    assert Agree(s1, s2, SelectedStylesF) && Agree(s1, s2, OriginalImageF) && Agree(s1, s2, OriginalImageUrlF);
    var s3 := EditScreen.ToggleStyle(EditScreen.ToggleStyle(s2, Minimal), Premium);
    TwoStylesToggled(s2);
    var s4 := EditScreen.SelectMood(s3, Clean);
    assert Agree(s3, s4, SelectedStylesF) && Agree(s3, s4, MarketplaceF);
    assert Agree(s3, s4, OriginalImageF) && Agree(s3, s4, OriginalImageUrlF);
    JoinTwo();
  }

  /** Toggling minimal then premium on an empty list lists them in that
      order, and touches nothing else the scenario reads. */
  lemma TwoStylesToggled(s: EditorState)
    requires s.selectedStyles == []
    ensures var r := EditScreen.ToggleStyle(EditScreen.ToggleStyle(s, Minimal), Premium);
            && r.selectedStyles == [Minimal, Premium]
            && r.marketplace == s.marketplace && r.originalImage == s.originalImage
            && r.originalImageUrl == s.originalImageUrl
  {
  }

  /** The style part of the scenario's prompt. */
  lemma JoinTwo()
    ensures EditScreen.StylesText([Minimal, Premium]) == "minimal, premium"
  {
    EditScreen.JoinAppend([Minimal], Premium);
    assert [Minimal] + [Premium] == [Minimal, Premium];
    assert EditScreen.JoinStyles([Minimal]) == "minimal";
  }
}

=== FILE: result_screen.dfy ===
/** The result screen: the before/after comparison, the download link, and
    the actions that leave the screen or clear the template. */
module ResultScreen {
  import opened Wrappers
  import opened EditorTypes
  import opened EditorContext
  import opened Text

  /** `handleRemoveTemplate`: the template is cleared; the marketplace it set
      stays. */
  function RemoveTemplate(s: EditorState): (r: EditorState)
    ensures r.selectedTemplate == None && r.marketplace == s.marketplace
    ensures UnchangedExcept(s, r, {SelectedTemplateF})
  {
    Merge(s, NoChange.(selectedTemplate := Some(None)))
  }

  /** "Refine": back to the edit screen with every choice kept. */
  function Refine(s: EditorState): (r: EditorState)
    ensures r.currentScreen == Edit
    ensures UnchangedExcept(s, r, {CurrentScreenF})
  {
    Merge(s, NoChange.(currentScreen := Some(Edit)))
  }

  /** "Back to Upload": to the upload screen with every choice kept. */
  function BackToUpload(s: EditorState): (r: EditorState)
    ensures r.currentScreen == Upload
    ensures UnchangedExcept(s, r, {CurrentScreenF})
  {
    Merge(s, NoChange.(currentScreen := Some(Upload)))
  }

  /** "Save as Template" only shows a notice: it issues no update. */
  function SaveAsTemplate(s: EditorState): (r: EditorState)
    ensures r == s
  {
    s
  }

  /** What the download action offers. */
  datatype Download = Download(href: string, fileName: string)

  /** The file name every download is offered under. */
  const DownloadName: string := "enhanced-product-image.png"

  /** `handleDownload`: the original URL under the fixed name, or nothing
      when there is no original URL. The state is not touched. */
  function DownloadLink(s: EditorState): (r: Option<Download>)
    ensures r.None? <==> !Truthy(s.originalImageUrl)
    ensures r.Some? ==> Some(r.value.href) == s.originalImageUrl && r.value.fileName == DownloadName
  {
    if Truthy(s.originalImageUrl) then Some(Download(s.originalImageUrl.value, DownloadName)) else None
  }

  /** The "after" picture: `enhancedImageUrl || originalImageUrl`. */
  function AfterImage(s: EditorState): (r: Option<string>)
    ensures Truthy(s.enhancedImageUrl) ==> r == s.enhancedImageUrl
    ensures !Truthy(s.enhancedImageUrl) ==> r == s.originalImageUrl
  {
    if Truthy(s.enhancedImageUrl) then s.enhancedImageUrl else s.originalImageUrl
  }

  /** When the enhanced URL is the original one, the "after" picture is the
      "before" picture. */
  lemma AfterIsBefore(s: EditorState)
    requires s.enhancedImageUrl == s.originalImageUrl
    ensures AfterImage(s) == s.originalImageUrl
  {
  }

  // ---------------------------------------------------------------------
  // The comparison divider
  // ---------------------------------------------------------------------

  /** `Math.max(0, Math.min(100, x))`. */
  function ClampPercent(x: real): (r: real)
    ensures 0.0 <= r <= 100.0
    ensures 0.0 <= x <= 100.0 ==> r == x
    ensures x < 0.0 ==> r == 0.0
    ensures x > 100.0 ==> r == 100.0
  {
    if x < 0.0 then 0.0 else if x > 100.0 then 100.0 else x
  }

  /** Clamping is monotone and idempotent. */
  lemma ClampMonotone(x: real, y: real)
    ensures x <= y ==> ClampPercent(x) <= ClampPercent(y)
    ensures ClampPercent(ClampPercent(x)) == ClampPercent(x)
  {
  }

  /** The divider's transient state: its position in percent and whether a
      drag is under way. */
  datatype Divider = Divider(position: real, dragging: bool)

  const InitialDivider: Divider := Divider(50.0, false)

  /** A pointer or touch pressed on the handle. */
  function StartDrag(d: Divider): (r: Divider)
    ensures r.dragging && r.position == d.position
  {
    d.(dragging := true)
  }

  /** Release or cancellation. */
  function EndDrag(d: Divider): (r: Divider)
    ensures !r.dragging && r.position == d.position
  {
    d.(dragging := false)
  }

  /** `handleMove` with the pointer at `raw` percent of the container's
      width: ignored unless dragging, otherwise clamped. */
  function Move(d: Divider, raw: real): (r: Divider)
    ensures !d.dragging ==> r == d
    ensures d.dragging ==> r.dragging && 0.0 <= r.position <= 100.0
    ensures d.dragging && 0.0 <= raw <= 100.0 ==> r.position == raw
    ensures d.dragging ==> r == d.(position := ClampPercent(raw))
  {
    if d.dragging then d.(position := ClampPercent(raw)) else d
  }

  /** The divider events. */
  datatype DividerEvent = Press | Release | Pointer(raw: real)

  function ApplyEvent(d: Divider, e: DividerEvent): Divider {
    match e
    case Press => StartDrag(d)
    case Release => EndDrag(d)
    case Pointer(raw) => Move(d, raw)
  }

  /** Applies the events in order. */
  function ApplyEvents(d: Divider, es: seq<DividerEvent>): Divider
    decreases |es|
  {
    if |es| == 0 then d else ApplyEvents(ApplyEvent(d, es[0]), es[1..])
  }

  /** From any position in range, the divider stays within [0, 100]
      whatever the pointer does. */
  lemma {:induction false} DividerStaysInRange(d: Divider, es: seq<DividerEvent>)
    requires 0.0 <= d.position <= 100.0
    ensures 0.0 <= ApplyEvents(d, es).position <= 100.0
    decreases |es|
  {
    if |es| > 0 {
      DividerStaysInRange(ApplyEvent(d, es[0]), es[1..]);
    }
  }

  /** In particular from the initial position at 50 percent. */
  lemma {:induction false} InitialDividerStaysInRange(es: seq<DividerEvent>)
    ensures 0.0 <= ApplyEvents(InitialDivider, es).position <= 100.0
  {
    DividerStaysInRange(InitialDivider, es);
  }
}

=== FILE: templates.dfy ===
/** The compiled-in template catalog and the ordered style and mood lists. */
module Templates {
  import opened Wrappers
  import opened EditorTypes

  const WbStudioClean: Template :=
    Template("wb-studio-clean", "WB Studio Clean", WB, "White background, strict form preservation")
  const OzonLifestyleSoft: Template :=
    Template("ozon-lifestyle-soft", "Ozon Lifestyle Soft", Ozon, "Realistic interior, soft daylight")
  const PremiumAppleLook: Template :=
    Template("premium-apple-look", "Premium Apple Look", Both, "Light gray background, premium lighting")

  /** The catalog, in display order. */
  const Catalog: seq<Template> := [WbStudioClean, OzonLifestyleSoft, PremiumAppleLook]

  /** Every style tag, in display order. */
  const AllStyles: seq<Style> := [Minimal, Premium, Eco, Fashion, Tech, Lifestyle]

  /** Every mood tag, in display order. */
  const AllMoods: seq<Mood> := [Clean, Warm, Bright, Dark, Professional]

  /** No element occurs twice. */
  predicate Distinct<T(==)>(xs: seq<T>) {
    forall i, j :: 0 <= i < j < |xs| ==> xs[i] != xs[j]
  }

  /** `Array.prototype.find` by id: the first template in `ts` whose id is
      `id`, or nothing when none has it. */
  function Find(ts: seq<Template>, id: string): (r: Option<Template>)
    ensures r.None? <==> forall i :: 0 <= i < |ts| ==> ts[i].id != id
    ensures r.Some? ==> exists i :: 0 <= i < |ts| && ts[i] == r.value
                                      && forall j :: 0 <= j < i ==> ts[j].id != id
    ensures r.Some? ==> r.value.id == id
  {
    if |ts| == 0 then None
    else if ts[0].id == id then Some(ts[0])
    else
      var r := Find(ts[1..], id);
      assert forall i :: 1 <= i < |ts| ==> ts[i] == ts[1..][i - 1];
      if r.Some? then
        var k :| 0 <= k < |ts[1..]| && ts[1..][k] == r.value
                 && forall j :: 0 <= j < k ==> ts[1..][j].id != id;
        assert ts[k + 1] == r.value;
        r
      else r
  }

  /** Catalog lookup by id. */
  function FindById(id: string): Option<Template> {
    Find(Catalog, id)
  }

  /** The template is absent, or is one of the catalog entries. */
  predicate InCatalog(t: Option<Template>) {
    t.None? || t.value in Catalog
  }

  /** The catalog holds exactly three entries with pairwise distinct ids. */
  lemma CatalogShape()
    ensures |Catalog| == 3
    ensures forall i, j :: 0 <= i < j < |Catalog| ==> Catalog[i].id != Catalog[j].id
  {
  }

  /** Looking up a catalog entry's id gives back that entry; an id held by no
      entry gives nothing. */
  lemma FindByIdResolves(t: Template, id: string)
    ensures t in Catalog ==> FindById(t.id) == Some(t)
    ensures FindById(id).Some? <==> exists i :: 0 <= i < |Catalog| && Catalog[i].id == id
    ensures FindById(id).Some? ==> FindById(id).value in Catalog
  {
  }

  /** Each of the three ids resolves to its entry, and each entry targets its
      own marketplace. */
  lemma KnownIds()
    ensures FindById("wb-studio-clean") == Some(WbStudioClean) && WbStudioClean.marketplace == WB
    ensures FindById("ozon-lifestyle-soft") == Some(OzonLifestyleSoft) && OzonLifestyleSoft.marketplace == Ozon
    ensures FindById("premium-apple-look") == Some(PremiumAppleLook) && PremiumAppleLook.marketplace == Both
  {
    FindByIdResolves(WbStudioClean, "");
    FindByIdResolves(OzonLifestyleSoft, "");
    FindByIdResolves(PremiumAppleLook, "");
  }

  /** Every catalog entry has an id and a name that are non-empty, so both
      are truthy when read back. */
  lemma CatalogEntriesNamed(t: Template)
    ensures t in Catalog ==> t.id != "" && t.name != ""
  {
  }

  /** The style and mood lists name every member of their enumeration
      exactly once, in their display order. */
  lemma ListsEnumerate(st: Style, m: Mood)
    ensures |AllStyles| == 6 && Distinct(AllStyles) && st in AllStyles
    ensures |AllMoods| == 5 && Distinct(AllMoods) && m in AllMoods
    ensures forall i :: 0 <= i < |AllStyles| ==>
              StyleName(AllStyles[i]) == ["minimal", "premium", "eco", "fashion", "tech", "lifestyle"][i]
    ensures forall i :: 0 <= i < |AllMoods| ==>
              MoodName(AllMoods[i]) == ["clean", "warm", "bright", "dark", "professional"][i]
  {
  }
}

=== FILE: text.dfy ===
/** The few string facts the editor relies on: JavaScript truthiness of an
    optional string and substring containment. */
module Text {
  import opened Wrappers

  /** JavaScript truthiness of a `string | null | undefined`: the empty string
      is falsy, like `null` and `undefined`. */
  predicate Truthy(o: Option<string>) {
    o.Some? && o.value != ""
  }

  /** The value of `a || fallback` when `fallback` is a string. */
  function OrElse(a: Option<string>, fallback: string): (r: string)
    ensures Truthy(a) ==> r == a.value
    ensures !Truthy(a) ==> r == fallback
  {
    if Truthy(a) then a.value else fallback
  }

  /** `sub` occurs somewhere in `s`. */
  predicate ContainsText(s: string, sub: string) {
    exists i :: 0 <= i <= |s| && sub <= s[i..]
  }

  /** The middle of a concatenation occurs in it. */
  lemma ContainsMiddle(a: string, b: string, c: string)
    ensures ContainsText(a + b + c, b)
  {
    var s := a + b + c;
    assert s[|a|..] == b + c;
  }

  /** Occurrence is transitive. */
  lemma ContainsTrans(s: string, t: string, u: string)
    requires ContainsText(s, t) && ContainsText(t, u)
    ensures ContainsText(s, u)
  {
    var i :| 0 <= i <= |s| && t <= s[i..];
    var j :| 0 <= j <= |t| && u <= t[j..];
    assert s[i..][j..] == s[i + j..];
    assert t[j..] <= s[i..][j..];
  }

  /** A string occurs in every extension of itself on either side. */
  lemma ContainsSides(a: string, b: string)
    ensures ContainsText(a + b, a) && ContainsText(a + b, b)
  {
    ContainsMiddle("", a, b);
    assert "" + a + b == a + b;
    ContainsMiddle(a, b, "");
    assert a + b + "" == a + b;
  }
}

=== FILE: types.dfy ===
/** The editor's data model: the closed enumerations, a catalog template,
    the shared wizard state and the partial update the screens issue. */
module EditorTypes {
  import opened Wrappers

  /** The marketplace a template targets and the one the user chose. */
  datatype Marketplace = WB | Ozon | Both

  datatype Style = Minimal | Premium | Eco | Fashion | Tech | Lifestyle

  datatype Mood = Clean | Warm | Bright | Dark | Professional

  /** The wizard phase; the only discriminator of which screen is shown. */
  datatype Screen = Upload | Edit | Result

  /** The literal each marketplace is written as. */
  function MarketplaceName(m: Marketplace): string {
    match m
    case WB => "WB"
    case Ozon => "Ozon"
    case Both => "Both"
  }

  /** The tag each style is written as. */
  function StyleName(st: Style): string {
    match st
    case Minimal => "minimal"
    case Premium => "premium"
    case Eco => "eco"
    case Fashion => "fashion"
    case Tech => "tech"
    case Lifestyle => "lifestyle"
  }

  /** The tag each mood is written as. */
  function MoodName(m: Mood): string {
    match m
    case Clean => "clean"
    case Warm => "warm"
    case Bright => "bright"
    case Dark => "dark"
    case Professional => "professional"
  }

  /** The written tags tell the enumeration members apart. */
  lemma NamesDistinguish(a: Style, b: Style, m: Mood, n: Mood, x: Marketplace, y: Marketplace)
    ensures StyleName(a) == StyleName(b) <==> a == b
    ensures MoodName(m) == MoodName(n) <==> m == n
    ensures MarketplaceName(x) == MarketplaceName(y) <==> x == y
    ensures StyleName(a) != "" && MoodName(m) != ""
  {
  }

  datatype Template = Template(id: string, name: string, marketplace: Marketplace, description: string)

  /** A file handle chosen by the user. Its bytes are not modelled: only the
      MIME type takes part in any decision. */
  datatype File = File(name: string, mimeType: string)

  /** The single shared wizard state. */
  datatype EditorState = EditorState(
    originalImage: Option<File>,
    originalImageUrl: Option<string>,
    marketplace: Marketplace,
    selectedTemplate: Option<Template>,
    selectedStyles: seq<Style>,
    selectedMood: Option<Mood>,
    userDescription: string,
    generatedPrompt: Option<string>,
    enhancedImageUrl: Option<string>,
    currentScreen: Screen)

  /** The names of the state's fields, to say which ones an update touches. */
  datatype Field =
    | OriginalImageF | OriginalImageUrlF | MarketplaceF | SelectedTemplateF | SelectedStylesF
    | SelectedMoodF | UserDescriptionF | GeneratedPromptF | EnhancedImageUrlF | CurrentScreenF

  /** `Partial<EditorState>`: every field may be supplied or left out. A
      supplied nullable field carries its own `Option`. */
  datatype Partial = Partial(
    originalImage: Option<Option<File>>,
    originalImageUrl: Option<Option<string>>,
    marketplace: Option<Marketplace>,
    selectedTemplate: Option<Option<Template>>,
    selectedStyles: Option<seq<Style>>,
    selectedMood: Option<Option<Mood>>,
    userDescription: Option<string>,
    generatedPrompt: Option<Option<string>>,
    enhancedImageUrl: Option<Option<string>>,
    currentScreen: Option<Screen>)

  /** The empty update `{}`. */
  const NoChange: Partial := Partial(None, None, None, None, None, None, None, None, None, None)

  /** Update `p` supplies field `f`. */
  predicate Mentions(p: Partial, f: Field) {
    match f
    case OriginalImageF => p.originalImage.Some?
    case OriginalImageUrlF => p.originalImageUrl.Some?
    case MarketplaceF => p.marketplace.Some?
    case SelectedTemplateF => p.selectedTemplate.Some?
    case SelectedStylesF => p.selectedStyles.Some?
    case SelectedMoodF => p.selectedMood.Some?
    case UserDescriptionF => p.userDescription.Some?
    case GeneratedPromptF => p.generatedPrompt.Some?
    case EnhancedImageUrlF => p.enhancedImageUrl.Some?
    case CurrentScreenF => p.currentScreen.Some?
  }

  /** `a` and `b` hold the same value in field `f`. */
  predicate Agree(a: EditorState, b: EditorState, f: Field) {
    match f
    case OriginalImageF => a.originalImage == b.originalImage
    case OriginalImageUrlF => a.originalImageUrl == b.originalImageUrl
    case MarketplaceF => a.marketplace == b.marketplace
    case SelectedTemplateF => a.selectedTemplate == b.selectedTemplate
    case SelectedStylesF => a.selectedStyles == b.selectedStyles
    case SelectedMoodF => a.selectedMood == b.selectedMood
    case UserDescriptionF => a.userDescription == b.userDescription
    case GeneratedPromptF => a.generatedPrompt == b.generatedPrompt
    case EnhancedImageUrlF => a.enhancedImageUrl == b.enhancedImageUrl
    case CurrentScreenF => a.currentScreen == b.currentScreen
  }

  /** Field `f` of `s` holds the value update `p` supplies for it. */
  predicate Supplied(p: Partial, s: EditorState, f: Field) {
    match f
    case OriginalImageF => p.originalImage == Some(s.originalImage)
    case OriginalImageUrlF => p.originalImageUrl == Some(s.originalImageUrl)
    case MarketplaceF => p.marketplace == Some(s.marketplace)
    case SelectedTemplateF => p.selectedTemplate == Some(s.selectedTemplate)
    case SelectedStylesF => p.selectedStyles == Some(s.selectedStyles)
    case SelectedMoodF => p.selectedMood == Some(s.selectedMood)
    case UserDescriptionF => p.userDescription == Some(s.userDescription)
    case GeneratedPromptF => p.generatedPrompt == Some(s.generatedPrompt)
    case EnhancedImageUrlF => p.enhancedImageUrl == Some(s.enhancedImageUrl)
    case CurrentScreenF => p.currentScreen == Some(s.currentScreen)
  }

  /** Every field outside `fs` is the same in `a` and `b`. */
  predicate UnchangedExcept(a: EditorState, b: EditorState, fs: set<Field>) {
    forall f :: f !in fs ==> Agree(a, b, f)
  }

  /** Two states agreeing on every field are equal. */
  lemma AgreeEverywhere(a: EditorState, b: EditorState)
    requires UnchangedExcept(a, b, {})
    ensures a == b
  {
    assert Agree(a, b, OriginalImageF) && Agree(a, b, OriginalImageUrlF);
    assert Agree(a, b, MarketplaceF) && Agree(a, b, SelectedTemplateF);
    assert Agree(a, b, SelectedStylesF) && Agree(a, b, SelectedMoodF);
    assert Agree(a, b, UserDescriptionF) && Agree(a, b, GeneratedPromptF);
    assert Agree(a, b, EnhancedImageUrlF) && Agree(a, b, CurrentScreenF);
  }

  /** Any subset of the fields can be supplied by an update: the one that
      supplies exactly the fields `fs`, taking their values from `s`. */
  function Pick(s: EditorState, fs: set<Field>): Partial
  {
    Partial(
      if OriginalImageF in fs then Some(s.originalImage) else None,
      if OriginalImageUrlF in fs then Some(s.originalImageUrl) else None,
      if MarketplaceF in fs then Some(s.marketplace) else None,
      if SelectedTemplateF in fs then Some(s.selectedTemplate) else None,
      if SelectedStylesF in fs then Some(s.selectedStyles) else None,
      if SelectedMoodF in fs then Some(s.selectedMood) else None,
      if UserDescriptionF in fs then Some(s.userDescription) else None,
      if GeneratedPromptF in fs then Some(s.generatedPrompt) else None,
      if EnhancedImageUrlF in fs then Some(s.enhancedImageUrl) else None,
      if CurrentScreenF in fs then Some(s.currentScreen) else None)
  }

  /** `Pick(s, fs)` supplies exactly the fields in `fs`, with `s`'s values. */
  lemma PickSuppliesExactly(s: EditorState, fs: set<Field>)
    ensures forall f :: Mentions(Pick(s, fs), f) <==> f in fs
    ensures forall f :: f in fs ==> Supplied(Pick(s, fs), s, f)
  {
  }
}

=== FILE: upload_screen.dfy ===
/** The upload screen: accept one JPEG or PNG file and move to editing. The
    asynchronous file read is modelled by its completion only; the data URL
    it produces is an input. */
module UploadScreen {
  import opened Wrappers
  import opened EditorTypes
  import opened EditorContext

  /** The only MIME types the upload accepts. */
  predicate Accepted(file: File) {
    file.mimeType == "image/jpeg" || file.mimeType == "image/png"
  }

  /** `handleFile` run to the read's completion: an accepted file sets the
      file handle, its data URL and the edit screen in one update; any other
      file changes nothing. */
  function HandleFile(s: EditorState, file: File, dataUrl: string): (r: EditorState)
    ensures !Accepted(file) ==> r == s
    ensures Accepted(file) ==> r.originalImage == Some(file) && r.originalImageUrl == Some(dataUrl)
                               && r.currentScreen == Edit
    ensures UnchangedExcept(s, r, {OriginalImageF, OriginalImageUrlF, CurrentScreenF})
  {
    if Accepted(file) then
      Merge(s, NoChange.(originalImage := Some(Some(file)),
                         originalImageUrl := Some(Some(dataUrl)),
                         currentScreen := Some(Edit)))
    else s
  }

  /** `handleDrop`: only the first dropped file is looked at. */
  function HandleDrop(s: EditorState, files: seq<File>, dataUrl: string): (r: EditorState)
    ensures |files| == 0 ==> r == s
    ensures |files| > 0 ==> r == HandleFile(s, files[0], dataUrl)
    ensures r != s ==> |files| > 0 && Accepted(files[0]) && r.originalImage == Some(files[0])
    ensures UnchangedExcept(s, r, {OriginalImageF, OriginalImageUrlF, CurrentScreenF})
  {
    if |files| > 0 then HandleFile(s, files[0], dataUrl) else s
  }

  /** `handleFileSelect`: the picker may report no file list at all. */
  function HandleFileSelect(s: EditorState, files: Option<seq<File>>, dataUrl: string): (r: EditorState)
    ensures files.None? ==> r == s
    ensures files.Some? ==> r == HandleDrop(s, files.value, dataUrl)
  {
    if files.Some? && |files.value| > 0 then HandleFile(s, files.value[0], dataUrl) else s
  }

  /** Files after the first never matter, and a rejected first file leaves
      the state as it was whatever follows it. */
  lemma OnlyFirstFileCounts(s: EditorState, f: File, rest1: seq<File>, rest2: seq<File>, url: string)
    ensures HandleDrop(s, [f] + rest1, url) == HandleDrop(s, [f] + rest2, url)
    ensures !Accepted(f) ==> HandleDrop(s, [f] + rest1, url) == s
  {
  }

  /** An accepted upload keeps every selection made so far: styles, mood,
      template, marketplace, description, prompt and enhanced URL. */
  lemma UploadKeepsSelections(s: EditorState, file: File, url: string)
    ensures var r := HandleFile(s, file, url);
            r.selectedStyles == s.selectedStyles && r.selectedMood == s.selectedMood
            && r.selectedTemplate == s.selectedTemplate && r.marketplace == s.marketplace
            && r.userDescription == s.userDescription && r.generatedPrompt == s.generatedPrompt
            && r.enhancedImageUrl == s.enhancedImageUrl
  {
  }
}

=== FILE: wrappers.dfy ===
/** Option and Result, the two failure-aware wrappers the model uses for
    JavaScript's `null`/`undefined` and for a decode that may throw. */
module Wrappers {

  /** `None` stands for both `null` and `undefined`. */
  datatype Option<+T> = None | Some(value: T) {

    /** The value, or `default` when there is none. */
    function GetOr(default: T): T {
      match this
      case Some(v) => v
      case None => default
    }
  }

  /** The outcome of an operation that may throw. */
  datatype Result<+R, +E> = Success(value: R) | Failure(error: E)
}
